=== FILE: README.md ===
# keteparaha page objects and flow control, in Dafny

keteparaha is a functional-testing helper. It wraps Selenium WebDriver in page objects: a
`Page` subclass is described by its `url`, a `Component` subclass by its CSS `selector`, and
tests interact through `click`, `click_button`, `enter_text` and `get_component`. This
project models the two parts of it that have rules of their own:

- **The page/component registry and the navigation resolver** (`keteparaha/page.py`):
  - `registry.dfy`, module `Registration`. The `RegisterMeta` metaclass files every Page and
    Component subclass into one shared `_registry` dictionary: under its url if it has one,
    else under its selector. `_get_component_class` turns a class or a selector into a class.
    For an unknown selector it makes a `DynamicComponent`. That class also goes through the
    metaclass, so it gets registered under its selector.
  - `page.dfy`, module `Pages`: `location()`, `_ensure_element`, `_click` and its three
    answers (the wrapper itself, a new page chosen by the browser's location, or the component
    asked for), `click`, `click_button`, `enter_text`, `get_component(s)`, and the Page and
    Component constructors, including `Page.__init__`'s navigation guard.
- **The `ignore` and `retry` wrappers** (`keteparaha/flow.py`): `flow.dfy`, module `Flow`. The
  wrapped function is a stream of call outcomes (returned value or raised error kind), and
  `errors` is a set of error kinds.

`wrappers.dfy` holds the `Option` and `Result` datatypes.

Abstractions:
- Selenium is reduced to the driver's current URL (a mutable field of `Pages.Driver`) and the
  page's elements. Each element carries the set of CSS selectors it matches and its text, and
  says whether it is displayed.
- A lookup that Selenium would wait for and give up on becomes a `Timeout` error.
- Where the browser ends up after a click is a `Landing` value given by the caller, and where
  `driver.get(url)` ends up (the url itself, or wherever a redirect leads) is an `arrived` URL.
- `enter_text` sees, on each attempt, what the element reports: a `Typing` value. That value may
  be an exception from `send_keys` or from reading the value, which then propagates.
- A class attribute that is unset (`None`) and one set to `""` are both falsy; both are written
  `""`.

## Model

| member | source | states |
|---|---|---|
| `Registration.Register` | keteparaha/page.py:214-218 | a class with a non-empty url is filed under its url. Otherwise one with a non-empty selector is filed under its selector. One with neither leaves the dictionary as it was. No other key is added or changed |
| `Registration.RegistrationKey` | keteparaha/page.py:214-218 | the metaclass's key is the url when it is non-empty, else the selector when that is non-empty, else none. It is never the empty string |
| `Registration.Registry.RegisterClass` | keteparaha/page.py:214-218 | the shared dictionary is updated in place to `Register(old entries, c)` and stays well keyed |
| `Registration.Registry.constructor` | keteparaha/page.py:223-224 | the shared dictionary starts empty |
| `Registration.RegisterKeepsWellKeyed` | keteparaha/page.py:214-218 | every entry stays filed under the key the metaclass computes for its class |
| `Registration.RegisterOverwrites` | keteparaha/page.py:216-218 | pages and components share one dictionary, so a later class filed under the same key replaces the earlier one |
| `Registration.RegisterCommutes` | keteparaha/page.py:214-218 | classes filed under different keys do not interfere, whatever the order of registration |
| `Registration.Registry.ComponentClass` | keteparaha/page.py:23-42 | returns `Resolve(old entries, t)`. The dictionary changes only by registering a new DynamicComponent for an unknown selector |
| `Registration.Resolve` | keteparaha/page.py:30-42 | a Component subclass comes back as itself. A registered key gives `_registry[key]`. Any other selector gives a DynamicComponent whose selector is that selector |
| `Registration.AfterResolve` | keteparaha/page.py:36-42 | resolving keeps every existing entry. It adds at most one key, the non-empty selector it was given |
| `Registration.ResolveKnown` | keteparaha/page.py:30-34 | a Component subclass comes back as itself. A registered key gives `_registry[key]`. Neither changes the dictionary |
| `Registration.ResolveUnknown` | keteparaha/page.py:33-42 | an unregistered selector gives a DynamicComponent whose selector is that selector. It is registered under that selector unless the selector is empty |
| `Registration.ResolveFilesUnderSelector` | keteparaha/page.py:33-42 | in a well-keyed dictionary, a non-empty selector always resolves to a class filed under that selector. The dictionary stays well keyed |
| `Registration.ResolveIsStable` | keteparaha/page.py:33-42 | resolving the same target a second time gives the same class and leaves the dictionary unchanged |
| `Pages.Location` | keteparaha/page.py:175-176 | the result has no '?', is a prefix of the URL, and stops at the URL's first '?' or at its end |
| `Pages.LocationOfPlain` | keteparaha/page.py:175-176 | a URL without '?' is its own location |
| `Pages.LocationIdempotent` | keteparaha/page.py:175-176 | cutting the query string twice is the same as cutting it once |
| `Pages.LocationUnique` | keteparaha/page.py:175-176 | the location is the only '?'-free prefix that ends at the first '?' or at the end of the URL |
| `Pages.FindElement` | keteparaha/page.py:81-87 | `get_element` finds the element at some index that matches the selector when no earlier element does. It finds nothing exactly when no element matches |
| `Pages.Lookup` | keteparaha/page.py:81-87 | `get_element` raises a timeout for that selector exactly when no element matches. Otherwise it gives the first match |
| `Pages.Matching` | keteparaha/page.py:103-107 | the elements `get_elements` waits for: only matching elements, and every matching element |
| `Pages.LookupAll` | keteparaha/page.py:103-107 | `get_elements` raises a timeout for the selector exactly when no element matches. Otherwise it gives the non-empty list of matches |
| `Pages.MatchingOne` | keteparaha/page.py:103-107 | a single element is kept exactly when it matches the selector |
| `Pages.MatchingAppend` | keteparaha/page.py:103-107 | the matches of a concatenation are the matches of each part, in order. With `MatchingOne`, this fixes the result as the document-order filter |
| `Pages.FindVisible` | keteparaha/page.py:89-94 | `get_visible_element` gives the first matching element only when that element is displayed |
| `Pages.UrlAfterOpening` | keteparaha/page.py:273-274 | `Page.__init__` navigates only when `location()` differs from the page's url. It then ends up where `driver.get(url)` arrives; otherwise the URL is unchanged |
| `Pages.OpeningLandsOnPage` | keteparaha/page.py:273-274 | when `driver.get` arrives at a url without a query string, the browser's location after opening is the page's url. Opening the page again does not navigate |
| `Pages.OpeningAfterRedirectNavigatesAgain` | keteparaha/page.py:273-274 | when `driver.get` arrives somewhere whose location is not the url (a redirect), every later opening navigates again |
| `Pages.OpeningQueryPageAlwaysNavigates` | keteparaha/page.py:273-274 | a page whose url carries a query string navigates on every opening, since no location equals it |
| `Pages.Wrapper.Page` | keteparaha/page.py:267-275 | the page object keeps its class's url, driver and body element. The driver's URL becomes `UrlAfterOpening(old URL, url, arrived)` |
| `Pages.Wrapper.Component` | keteparaha/page.py:235-248 | a component shares its parent's driver and registry. Its url is the parent's, unless its class sets a url of its own, which shadows the `url` property |
| `Pages.Wrapper.NewComponent` | keteparaha/page.py:235-248 | uses the element it is given, or else the first element matching the class's selector. With neither, it raises a timeout. The component shares the wrapper's driver and registry, and its url is its class's own or else the wrapper's |
| `Pages.Wrapper.GetComponent` | keteparaha/page.py:44-58 | the component exists exactly when an element matches the resolved class's selector. Otherwise it raises ComponentMissing for that class. A component shares the wrapper's driver and registry, and its url is its class's own or else the wrapper's |
| `Pages.Wrapper.GetComponents` | keteparaha/page.py:60-73 | one fresh component of the resolved class per matching element, in document order. When nothing matches, the timeout of `get_elements` is caught and the list is empty. Every component shares the wrapper's driver and registry, and its url is its class's own or else the wrapper's |
| `Pages.Wrapper.EnsureElement` | keteparaha/page.py:165-173 | a string is looked up as a selector, and a component by its selector. `None` gives the wrapper's own element, and an element comes back unchanged. Only the two lookups can fail, and only when no element matches |
| `Pages.ClickOutcomeAsWritten` | keteparaha/page.py:128-141 | `_click` as written, where the registry lookup uses the full `current_url`. Without `opens`, it raises KeyError exactly on the full URL, and only when that URL is unregistered while its location is registered. It raises TypeError when the class under the full URL is a component, and a new page is always the class under the full URL |
| `Pages.ClickOutcome` | keteparaha/page.py:128-141 | the corrected `_click` decision. With a truthy `opens` it fails only by a timeout. Without one it fails only with TypeError, when the class registered under the location is a component, which takes no `driver` keyword |
| `Pages.ClickOpensComponent` | keteparaha/page.py:135-136 | with a truthy `opens`, the click hands back an instance of the resolved class, whatever the URL, or times out when its element is missing |
| `Pages.ClickSwitchesPage` | keteparaha/page.py:138-141 | without `opens`, the click switches exactly when `self.url != location()` and the location is registered. It then raises TypeError exactly when the class under the location is a component, and otherwise hands back a new page of that class. When it does not switch it hands back `self` |
| `Pages.ClickOntoComponentUrlRaises` | keteparaha/page.py:138-140 | concrete input: a component class with url "/panel" is registered, and a click on the page at "/home" lands on "/panel". Both the code as written and the corrected lookup raise TypeError |
| `Pages.SwitchedPageNeedsNoNavigation` | keteparaha/page.py:138-141 | in a well-keyed registry, the page class a click switches to is filed under the location. If that class has a url, it equals the location, so opening the page does not navigate, wherever `driver.get` would arrive |
| `Pages.AsWrittenAgreesWithoutQuery` | keteparaha/page.py:138-141 | without a query string in the URL, the code as written and the corrected lookup agree |
| `Pages.AsWrittenRaisesOnQuery` | keteparaha/page.py:138-140 | when the location is registered but the full URL is not, the code as written raises KeyError and the corrected lookup switches to the class under the location |
| `Pages.QueryStringClickRaisesKeyError` | keteparaha/page.py:138-140 | concrete input: HomePage at "/" and CoolPage at "/path" are registered, and the click lands on "/path?next=1" |
| `Pages.Wrapper.ClickElement` | keteparaha/page.py:128-141 | clicks the element it was given. The driver's URL becomes the landing URL, and the result is `ClickOutcome`, the corrected lookup, including its TypeError for a component class. Only a truthy `opens` can change the registry, through `_get_component_class` |
| `Pages.Wrapper.Click` | keteparaha/page.py:143-152 | when the element cannot be found, that error is raised before any click and nothing changes. Otherwise it clicks the element `_ensure_element` gives. The result and the registry after the click are as for `_click` |
| `Pages.FindButton` | keteparaha/page.py:159-161 | the first button whose text equals the one asked for and that is displayed. None exactly when no button qualifies |
| `Pages.Wrapper.ClickButton` | keteparaha/page.py:157-164 | with no qualifying button it raises the AssertionError and changes nothing. Otherwise it clicks the first qualifying button in document order. The result and the registry are as for `_click` |
| `Pages.JoinedAppend` | keteparaha/page.py:195 | the expected value of a concatenation of pieces is the concatenation of their joins, and one piece joins to itself |
| `Pages.TypingFrom` | keteparaha/page.py:189-205 | the loop types at most 5 times. It raises its AssertionError only after the fifth attempt. Any other exception escapes from the attempt that raised it |
| `Pages.TypingSkipsRetyped` | keteparaha/page.py:189-204 | attempts that type a wrong value and clear the field only pass the loop on to the next attempt |
| `Pages.TypingStopsAtFirstEnd` | keteparaha/page.py:189-202 | typing returns normally at the first attempt that is stale, reads the expected value, or cannot be cleared. It types no more after that |
| `Pages.TypingLetsOtherErrorsEscape` | keteparaha/page.py:190-194 | an exception from `send_keys`, or one from reading the value other than a stale element, escapes on its own attempt with no further typing |
| `Pages.TypingFailsAfterAllAttempts` | keteparaha/page.py:189-205 | when every attempt types a wrong value and clears the field, it raises AssertionError after exactly 5 attempts |
| `Pages.TypingFromSucceedsIff` | keteparaha/page.py:189-205 | from any attempt on, the loop returns normally exactly when some attempt ends typing and every attempt before it typed again |
| `Pages.EnterTextSucceedsIff` | keteparaha/page.py:181-205 | once the element is visible, `enter_text` returns normally exactly when one of its 5 attempts ends typing, every earlier attempt having typed a wrong value and cleared the field |
| `Pages.EnterTextOutcome` | keteparaha/page.py:181-205 | `enter_text` raises a timeout, without typing, exactly when the element is not visible. It types at most 5 times |
| `Pages.Wrapper.EnterText` | keteparaha/page.py:181-205 | the `for` loop computes `EnterTextOutcome`: a timeout when the element is not visible, otherwise the typing loop's result and attempt count, at most 5 |
| `Pages.Driver.constructor` | keteparaha/page.py:175-176 | the driver is reduced to its `current_url`, the one piece of browser state that `location()` and the navigation guard read |
| `Flow.Ignore` | keteparaha/flow.py:12-20 | a successful call's result is returned unchanged. A listed error is swallowed and gives None. Any other error propagates with its own kind |
| `Flow.IgnoreAgreesWithOneAttempt` | keteparaha/flow.py:12-34 | `ignore` and a one-attempt `retry` agree, except that on a listed error `ignore` swallows it and `retry` re-raises it |
| `Flow.RetryFrom` | keteparaha/flow.py:27-33 | the loop calls `func` at most `retries` more times. If it makes no call it re-raises the last caught error |
| `Flow.Retry` | keteparaha/flow.py:23-34 | at most `attempts` calls. With `attempts == 0`, `func` is never called and the bare `raise` has nothing to re-raise |
| `Flow.RetryCall` | keteparaha/flow.py:25-33 | the `while retries` loop that decrements the counter computes exactly `Retry`, with at most `attempts` calls |
| `Flow.RetryFromStopsAt` | keteparaha/flow.py:28-32 | from any point of the loop, the first call that is not a caught error ends it, and that call's outcome is the wrapper's |
| `Flow.RetryFromExhausted` | keteparaha/flow.py:28-33 | from any point of the loop, when every remaining call raises a listed error, the last one is re-raised |
| `Flow.RetryReturnsFirstSuccess` | keteparaha/flow.py:28-30 | `retry` returns the first successful call's result and makes no further call |
| `Flow.RetryLetsUnlistedEscape` | keteparaha/flow.py:29-31 | an error not in `errors` escapes on the attempt where it happens, and no further attempt is made |
| `Flow.RetryReraisesLast` | keteparaha/flow.py:28-33 | when every attempt raises a listed error, `func` is called `attempts` times and the last error is re-raised |
| `Flow.RetryFromEarlierCaught` | keteparaha/flow.py:28-33 | every call but the last raised a listed error, and the last call decides the outcome |
| `Flow.RetryEarlierCallsCaught` | keteparaha/flow.py:23-34 | the same, for a whole call of the wrapper |

## Findings

| source | as written | input that shows it | evidently intended | confidence | as-written member | corrected member |
|---|---|---|---|---|---|---|
| keteparaha/page.py:138-140 | the guard checks that `location()` is registered, but the lookup is `_registry[self._driver.current_url]` | HomePage ("/") and CoolPage ("/path") registered; the click lands on "/path?next=1": KeyError("/path?next=1") | look up `_registry[self.location()]` and switch to CoolPage | high, not executed | `Pages.AsWrittenRaisesOnQuery` | `Pages.ClickSwitchesPage` |

`Pages.ClickOutcomeAsWritten` models the code as written, and `Pages.QueryStringClickRaisesKeyError`
checks the concrete input. `Pages.ClickOutcome` is the corrected decision: the lookup uses
`location()`. `Pages.Wrapper.ClickElement` uses the corrected decision.

## Left out

- Selenium's waiting and matching: `WebDriverWait`, the expected conditions, the timeout
  length and `time.sleep`. A lookup either finds elements in the given element list or times
  out. CSS matching is the set of selectors each element declares.
- Searches are not scoped to the wrapper's own element. Every lookup, including
  `click_button`'s button list, searches the whole element list it is given.
- What a click does in the browser, where `driver.get` arrives, and what `send_keys`/`clear` do
  to a field. These are inputs (`Landing`, `arrived`, `Typing`). Whether `clear()` works is one
  flag: every exception it raises is a `WebDriverException`, which `enter_text` catches.
- Python's metaclass and `type()` machinery. A class is a `ClassId` value. Its `url` and
  `selector` are the values its own class body assigns; inheriting them from a base class is not
  modelled.
- Passing a Page class to `_get_component_class`. The target type admits only Component
  subclasses or selector strings. Python would look up and register the class object itself.
- A Page class reached through a selector and then constructed as a component. In Python it
  runs `Page.__init__` with the wrapper as its test case. `Pages.Wrapper.NewComponent` builds a
  component object for it.
- `Pages.Wrapper.Page`: the `body` lookup in `Page.__init__` is an input, so its timeout is not
  modelled. `None` and `""` urls are merged; with `None`, Python navigates (to `None`) whatever
  the location, and this is not distinguished.
- `Registration.Registry.constructor`: the dictionary is empty only until `Component` itself is
  defined. Its `url` property object is truthy in the class body, so the metaclass files
  `Component` under that object. No string lookup can reach that key, and the model leaves it
  out.
- The test case object `tc`, which these operations only pass along.
- `Flow.Retry`: `attempts` is a natural number. With a negative `attempts`, `while retries` loops
  until `func` succeeds or raises an unlisted error, and that is not modelled.
- `except errors:` matches exception subclasses. Here an error is caught only when its kind is
  listed; the class hierarchy is not modelled.
- `Flow.Retry`: with `attempts == 0`, the bare `raise` raises TypeError in Python 2, the language
  this code targets (`basestring`, `unicode`), unless the caller is itself handling an exception.
  That outer exception is not modelled.
- `click_link` (keteparaha/page.py:154-155): a lookup by link text, which the model's `Element`
  does not carry, followed by the modelled `_click`.
- `select_option` (keteparaha/page.py:178-179): `get_element` followed by Selenium's
  `select_by_visible_text`, whose option matching is Selenium's own.
- `assert_text_in_element` (keteparaha/page.py:115-120) and, through it, `assert_text_in_page`
  (keteparaha/page.py:277-278): they build the failure message with
  `self.get_component(selector).text` before waiting. So they raise ComponentMissing when no
  element matches and file a DynamicComponent under the selector, as
  `Pages.Wrapper.GetComponent` states. The wait for the text is a Selenium condition over time
  and is left out.
- `assert_element_invisible`, `wait_for_invisibility`, `get_attribute`, `text`: one Selenium call
  each, with no logic of their own.
- `__repr__` (keteparaha/page.py:231-233): it formats the class name and the selector, with no
  logic of its own.
- `Pages.Wrapper.Component`: a component class whose body sets `url` to `""` or `None` counts
  as setting none, and the component takes its parent's url. In Python that empty value
  shadows the `url` property.
- The `UnUsed` class: dead code that polls the driver.
- keteparaha/browser.py, email.py, email_client.py and expectations.py, test_helpers/, setup.py
  and the package `__init__` files: browser and display start-up, screenshots, the IMAP client,
  and element-state delegations. These are not part of this model.

=== FILE: flow.dfy ===
/**
 * The flow-control wrappers of keteparaha/flow.py.
 *
 * The wrapped function is modelled by what its successive calls do: `calls(i)` is the
 * outcome of the i-th call (counting from 0), either a returned value or a raised error.
 * The `errors` argument, a class or tuple of exception classes in Python, is a set of
 * error kinds, and `except errors:` catches an error exactly when its kind is in the set.
 */
module Flow {
  import opened Wrappers

  /** The name of an exception class. */
  type ErrorKind = string

  /** What Python 2 raises when a bare `raise` runs while no exception is being handled. */
  const NoActiveException: ErrorKind := "TypeError"

  /** What one call of the wrapped function does. */
  datatype Outcome<T> = Returned(value: T) | Raised(kind: ErrorKind)

  /** `ignore(func, errors)` applied to one call of `func` whose outcome is `call`. */
  function Ignore<T>(call: Outcome<T>, errors: set<ErrorKind>): (r: Outcome<Option<T>>)
    ensures call.Returned? ==> r == Returned(Some(call.value))
    ensures r == Returned(None) <==> call.Raised? && call.kind in errors
    ensures r.Raised? <==> call.Raised? && call.kind !in errors
    ensures r.Raised? ==> r.kind == call.kind
  {
    match call
    case Returned(v) => Returned(Some(v))
    case Raised(k) => if k in errors then Returned(None) else Raised(k)
  }

  /** One call of the `retry` wrapper: what it returned or raised and how often it called `func`. */
  datatype Run<T> = Run(outcome: Outcome<T>, calls: nat)

  /** The error a bare `raise` re-raises in Python 2: the last one caught, if any. */
  function Reraised(last: Option<ErrorKind>): ErrorKind
  {
    match last
    case Some(k) => k
    case None => NoActiveException
  }

  /**
   * The `while retries:` loop of `retry`, entered after `made` calls with `left` attempts
   * still allowed and `last` the most recently caught error.
   */
  function RetryFrom<T>(calls: nat -> Outcome<T>, errors: set<ErrorKind>, left: nat, made: nat,
                        last: Option<ErrorKind>): (r: Run<T>)
    ensures made <= r.calls <= made + left
    ensures r.calls == made ==> r.outcome == Raised(Reraised(last))
    decreases left
  {
    if left == 0 then Run(Raised(Reraised(last)), made)
    else
      match calls(made)
      case Returned(v) => Run(Returned(v), made + 1)
      case Raised(k) =>
        if k in errors then RetryFrom(calls, errors, left - 1, made + 1, Some(k))
        else Run(Raised(k), made + 1)
  }

  /** One call of the wrapper `retry(func, errors, attempts)` returns. */
  function Retry<T>(calls: nat -> Outcome<T>, errors: set<ErrorKind>, attempts: nat): (r: Run<T>)
    ensures r.calls <= attempts
    ensures attempts == 0 ==> r == Run(Raised(NoActiveException), 0)
  {
    RetryFrom(calls, errors, attempts, 0, None)
  }

  /** The calls numbered `from` up to (not including) `upto` all raised a listed error. */
  predicate CaughtBetween<T>(calls: nat -> Outcome<T>, errors: set<ErrorKind>, from: nat, upto: nat)
  {
    forall i: nat :: from <= i < upto ==> calls(i).Raised? && calls(i).kind in errors
  }

  /** The `retry` wrapper itself: the loop that decrements `retries` on each caught error. */
  method RetryCall<T>(calls: nat -> Outcome<T>, errors: set<ErrorKind>, attempts: nat)
    returns (outcome: Outcome<T>, made: nat)
    ensures Run(outcome, made) == Retry(calls, errors, attempts)
    ensures made <= attempts
  {
    var retries := attempts;
    var last: Option<ErrorKind> := None;
    made := 0;
    while retries != 0
      invariant made + retries == attempts
      invariant RetryFrom(calls, errors, retries, made, last) == Retry(calls, errors, attempts)
      decreases retries
    {
      var call := calls(made);
      made := made + 1;
      match call {
        case Returned(v) =>
          outcome := Returned(v);
          return;
        case Raised(k) =>
          if k !in errors {
            outcome := Raised(k);
            return;
          }
          retries := retries - 1;
          last := Some(k);
      }
    }
    outcome := Raised(Reraised(last));
  }

  /** From any point of the loop, the first call that is not a caught error ends it. */
  lemma {:induction false} RetryFromStopsAt<T>(calls: nat -> Outcome<T>, errors: set<ErrorKind>,
                                               left: nat, made: nat, last: Option<ErrorKind>, j: nat)
    requires made <= j < made + left
    requires CaughtBetween(calls, errors, made, j)
    requires !(calls(j).Raised? && calls(j).kind in errors)
    ensures RetryFrom(calls, errors, left, made, last) == Run(calls(j), j + 1)
    decreases left
  {
    if made < j {
      RetryFromStopsAt(calls, errors, left - 1, made + 1, Some(calls(made).kind), j);
    }
  }

  /** From any point of the loop, if every remaining attempt is caught, the last caught error escapes. */
  lemma {:induction false} RetryFromExhausted<T>(calls: nat -> Outcome<T>, errors: set<ErrorKind>,
                                                 left: nat, made: nat, last: Option<ErrorKind>)
    requires CaughtBetween(calls, errors, made, made + left)
    ensures RetryFrom(calls, errors, left, made, last)
         == Run(Raised(if left == 0 then Reraised(last) else calls(made + left - 1).kind), made + left)
    decreases left
  {
    if left != 0 {
      RetryFromExhausted(calls, errors, left - 1, made + 1, Some(calls(made).kind));
    }
  }

  /** `retry` returns the result of the first successful call and calls `func` no more after it. */
  lemma RetryReturnsFirstSuccess<T>(calls: nat -> Outcome<T>, errors: set<ErrorKind>, attempts: nat, j: nat)
    requires j < attempts
    requires CaughtBetween(calls, errors, 0, j)
    requires calls(j).Returned?
    ensures Retry(calls, errors, attempts) == Run(Returned(calls(j).value), j + 1)
  {
    RetryFromStopsAt(calls, errors, attempts, 0, None, j);
  }

  /** An error that is not listed escapes on the attempt where it happens, with no further attempts. */
  lemma RetryLetsUnlistedEscape<T>(calls: nat -> Outcome<T>, errors: set<ErrorKind>, attempts: nat, j: nat)
    requires j < attempts
    requires CaughtBetween(calls, errors, 0, j)
    requires calls(j).Raised? && calls(j).kind !in errors
    ensures Retry(calls, errors, attempts) == Run(Raised(calls(j).kind), j + 1)
  {
    RetryFromStopsAt(calls, errors, attempts, 0, None, j);
  }

  /** When every attempt raises a listed error, `func` is called `attempts` times and the last error is re-raised. */
  lemma RetryReraisesLast<T>(calls: nat -> Outcome<T>, errors: set<ErrorKind>, attempts: nat)
    requires 0 < attempts
    requires CaughtBetween(calls, errors, 0, attempts)
    ensures Retry(calls, errors, attempts) == Run(Raised(calls(attempts - 1).kind), attempts)
  {
    RetryFromExhausted(calls, errors, attempts, 0, None);
  }

  /** Every call but the last one that `retry` makes raised a listed error, and the last one decides the outcome. */
  lemma {:induction false} RetryFromEarlierCaught<T>(calls: nat -> Outcome<T>, errors: set<ErrorKind>,
                                                     left: nat, made: nat, last: Option<ErrorKind>)
    ensures var r := RetryFrom(calls, errors, left, made, last);
      r.calls == made ||
      (CaughtBetween(calls, errors, made, r.calls - 1) &&
       (calls(r.calls - 1).Returned? ==> r.outcome == calls(r.calls - 1)) &&
       (calls(r.calls - 1).Raised? ==> r.outcome == Raised(calls(r.calls - 1).kind)))
    decreases left
  {
    if left != 0 && calls(made).Raised? && calls(made).kind in errors {
      RetryFromEarlierCaught(calls, errors, left - 1, made + 1, Some(calls(made).kind));
    }
  }

  /** The whole-wrapper form of RetryFromEarlierCaught. */
  lemma RetryEarlierCallsCaught<T>(calls: nat -> Outcome<T>, errors: set<ErrorKind>, attempts: nat)
    ensures var r := Retry(calls, errors, attempts);
      r.calls == 0 ||
      (CaughtBetween(calls, errors, 0, r.calls - 1) &&
       (calls(r.calls - 1).Returned? ==> r.outcome == calls(r.calls - 1)) &&
       (calls(r.calls - 1).Raised? ==> r.outcome == Raised(calls(r.calls - 1).kind)))
  {
    RetryFromEarlierCaught(calls, errors, attempts, 0, None);
  }

  /**
   * `ignore` and a single-attempt `retry` agree except on a listed error, which `ignore`
   * swallows and `retry` re-raises.
   */
  lemma IgnoreAgreesWithOneAttempt<T>(calls: nat -> Outcome<T>, errors: set<ErrorKind>)
    ensures var once := Retry(calls, errors, 1);
      once.calls == 1 &&
      once.outcome.Raised? == calls(0).Raised? &&
      (calls(0).Returned? ==> Ignore(calls(0), errors) == Returned(Some(once.outcome.value))) &&
      (calls(0).Raised? ==>
         once.outcome == calls(0) &&
         (Ignore(calls(0), errors).Raised? <==> calls(0).kind !in errors) &&
         (Ignore(calls(0), errors).Raised? ==> Ignore(calls(0), errors).kind == once.outcome.kind))
  {
  }
}

=== FILE: page.dfy ===
/**
 * The page objects of keteparaha/page.py: `SeleniumWrapper` with its two subclasses Page
 * and Component, here one class `Wrapper`.
 *
 * The browser is abstracted to two things: the driver's current URL, a mutable field, and
 * the elements of the page, a sequence in document order. Each element carries the set of
 * CSS selectors it matches, so "an element is found for a selector" means that some
 * element's set holds that selector. A lookup that Selenium would wait for and then give up
 * on is a `Timeout`. What the browser does when an element is clicked (following a link,
 * loading a new page) is a `Landing` given by the caller.
 */
module Pages {
  import opened Wrappers
  import opened Registration

  /** `location()`: the current URL up to, and not including, its first '?'. */
  function Location(url: string): (r: string)
    ensures '?' !in r
    ensures r <= url
    ensures |r| < |url| ==> url[|r|] == '?'
  {
    if url == [] || url[0] == '?' then [] else [url[0]] + Location(url[1..])
  }

  /** A URL without a query string is its own location. */
  lemma {:induction false} LocationOfPlain(url: string)
    requires '?' !in url
    ensures Location(url) == url
  {
    if url != [] {
      LocationOfPlain(url[1..]);
    }
  }

  /** Cutting the query string a second time changes nothing. */
  lemma LocationIdempotent(url: string)
    ensures Location(Location(url)) == Location(url)
  {
    LocationOfPlain(Location(url));
  }

  /** The location is the only prefix without a '?' that ends at the first '?' or at the end. */
  lemma LocationUnique(url: string, p: string)
    requires p <= url && '?' !in p
    requires |p| == |url| || url[|p|] == '?'
    ensures p == Location(url)
  {
  }

  /** A DOM element: the selectors it matches, its visible text, and whether it is displayed. */
  datatype Element = Element(matches: set<string>, text: string, displayed: bool)

  /** What the browser shows once an element has been clicked. */
  datatype Landing = Landing(url: string, elements: seq<Element>)

  /** The exceptions the modelled operations raise. */
  datatype Error =
    | Timeout(selector: string)         // TimeoutException from WebDriverWait
    | ComponentMissing(cls: ClassId)    // SeleniumWrapper.ComponentMissing
    | KeyError(key: string)             // a failed lookup in _registry
    | NoSuchButton(buttonText: string)  // click_button's AssertionError
    | TypingFailed(expected: string)    // enter_text's AssertionError
    | Escaped(kind: string)             // any other exception, propagated unchanged

  /** The first element of `dom` that matches `selector`, as `get_element` finds it. */
  function FindElement(dom: seq<Element>, selector: string): (r: Option<Element>)
    ensures r.None? <==> forall i :: 0 <= i < |dom| ==> selector !in dom[i].matches
    ensures r.Some? ==>
      exists i :: 0 <= i < |dom| && dom[i] == r.value && selector in dom[i].matches &&
                  forall j :: 0 <= j < i ==> selector !in dom[j].matches
  {
    if dom == [] then None
    else if selector in dom[0].matches then Some(dom[0])
    else FindElement(dom[1..], selector)
  }

  /** `get_element(selector)`: the first match, or a timeout when nothing matches. */
  function Lookup(dom: seq<Element>, selector: string): (r: Result<Element, Error>)
    ensures r.Err? <==> forall i :: 0 <= i < |dom| ==> selector !in dom[i].matches
    ensures r.Err? ==> r.error == Timeout(selector)
    ensures r.Ok? ==> selector in r.value.matches && Some(r.value) == FindElement(dom, selector)
  {
    match FindElement(dom, selector)
    case Some(e) => Ok(e)
    case None => Err(Timeout(selector))
  }

  /** Every element of `dom` that matches `selector`, in document order. */
  function Matching(dom: seq<Element>, selector: string): (r: seq<Element>)
    ensures |r| <= |dom|
    ensures forall e :: e in r ==> e in dom && selector in e.matches
    ensures forall e :: e in dom && selector in e.matches ==> e in r
  {
    if dom == [] then []
    else if selector in dom[0].matches then [dom[0]] + Matching(dom[1..], selector)
    else Matching(dom[1..], selector)
  }

  /**
   * `get_elements(selector)`: every match in document order. The wait treats an empty list as
   * not yet found, so when nothing matches it gives up with a timeout.
   */
  function LookupAll(dom: seq<Element>, selector: string): (r: Result<seq<Element>, Error>)
    ensures r.Err? <==> forall i :: 0 <= i < |dom| ==> selector !in dom[i].matches
    ensures r.Err? ==> r.error == Timeout(selector)
    ensures r.Ok? ==> r.value != [] && r.value == Matching(dom, selector)
  {
    var found := Matching(dom, selector);
    if found == [] then
      assert forall i :: 0 <= i < |dom| ==> dom[i] in dom;
      Err(Timeout(selector))
    else
      assert found[0] in found;
      Ok(found)
  }

  /** A single element is kept exactly when it matches. */
  lemma MatchingOne(e: Element, selector: string)
    ensures Matching([e], selector) == if selector in e.matches then [e] else []
  {
    assert [e][1..] == [];
  }

  /** Filtering a concatenation filters each part and keeps their order. */
  lemma {:induction false} MatchingAppend(a: seq<Element>, b: seq<Element>, selector: string)
    ensures Matching(a + b, selector) == Matching(a, selector) + Matching(b, selector)
  {
    if a == [] {
      assert a + b == b;
    } else {
      assert (a + b)[0] == a[0];
      assert (a + b)[1..] == a[1..] + b;
      MatchingAppend(a[1..], b, selector);
    }
  }

  /** `get_visible_element(selector)`: the first match, provided it is displayed. */
  function FindVisible(dom: seq<Element>, selector: string): (r: Option<Element>)
    ensures r.Some? ==> r == FindElement(dom, selector) && r.value.displayed
    ensures r.None? ==> FindElement(dom, selector).None? || !FindElement(dom, selector).value.displayed
  {
    match FindElement(dom, selector)
    case Some(e) => if e.displayed then Some(e) else None
    case None => None
  }

  /**
   * The browser's URL once `Page.__init__` has run for a page whose `url` is `url`, starting
   * at `current`. `arrived` is where `driver.get(url)` ends up; a redirect or a normalised URL
   * makes it differ from `url`.
   */
  function UrlAfterOpening(current: string, url: string, arrived: string): (r: string)
    ensures r != current ==> Location(current) != url
    ensures Location(current) != url ==> r == arrived
    ensures Location(current) == url ==> r == current
  {
    if Location(current) != url then arrived else current
  }

  /**
   * When `driver.get` arrives at the url itself and that url has no query string, the page is
   * at its url once opened, and opening it again navigates nowhere.
   */
  lemma OpeningLandsOnPage(current: string, url: string, again: string)
    requires '?' !in url
    ensures Location(UrlAfterOpening(current, url, url)) == url
    ensures UrlAfterOpening(UrlAfterOpening(current, url, url), url, again) == UrlAfterOpening(current, url, url)
  {
    if Location(current) != url {
      LocationOfPlain(url);
    }
  }

  /** When `driver.get` arrives somewhere whose location is not the url, every later opening navigates again. */
  lemma OpeningAfterRedirectNavigatesAgain(current: string, url: string, arrived: string, again: string)
    requires Location(current) != url
    requires Location(arrived) != url
    ensures UrlAfterOpening(current, url, arrived) == arrived
    ensures UrlAfterOpening(arrived, url, again) == again
  {
  }

  /** A page whose url carries a query string navigates every time it is opened. */
  lemma OpeningQueryPageAlwaysNavigates(current: string, url: string, arrived: string)
    requires '?' in url
    ensures Location(current) != url
    ensures UrlAfterOpening(current, url, arrived) == arrived
  {
  }

  /** The object `_click` hands back: the wrapper itself, a new page object, or a component. */
  datatype Handed = Self | NewPage(cls: ClassId) | Comp(cls: ClassId)

  /**
   * The exception `cls(self.tc, driver=...)` raises when `cls` is a Component subclass:
   * `Component.__init__` takes no `driver` keyword.
   */
  const UnexpectedKeyword := "TypeError"

  /**
   * What `_click` hands back for the class `cls` found in the registry: a new page object,
   * or TypeError when `cls` is a component.
   */
  function SwitchTo(cls: ClassId): (r: Result<Handed, Error>)
  {
    if cls.IsComponent() then Err(Escaped(UnexpectedKeyword)) else Ok(NewPage(cls))
  }

  /** `if opens:` in `_click`; `None` and the empty selector are falsy. */
  predicate OpensTruthy(opens: Option<Target>)
  {
    opens.Some? && (opens.value.ComponentClass? || opens.value.text != "")
  }

  /**
   * What `_click` hands back for a wrapper whose `url` is `ownUrl`, once the browser is at
   * `current` showing `dom`. This is the corrected lookup, by `location()`.
   */
  function ClickOutcome(ownUrl: string, entries: Entries, current: string, opens: Option<Target>,
                        dom: seq<Element>): (r: Result<Handed, Error>)
    ensures r.Err? && OpensTruthy(opens) ==> r.error.Timeout?
    ensures r.Err? && !OpensTruthy(opens) ==>
      r.error == Escaped(UnexpectedKeyword) && Location(current) in entries && entries[Location(current)].IsComponent()
  {
    if OpensTruthy(opens) then
      var c := Resolve(entries, opens.value);
      if FindElement(dom, c.selector).Some? then Ok(Comp(c)) else Err(Timeout(c.selector))
    else if ownUrl != Location(current) && Location(current) in entries then
      SwitchTo(entries[Location(current)])
    else
      Ok(Self)
  }

  /** `_click` as written: the guard tests `location()` but the lookup uses the full `current_url`. */
  function ClickOutcomeAsWritten(ownUrl: string, entries: Entries, current: string, opens: Option<Target>,
                                 dom: seq<Element>): (r: Result<Handed, Error>)
    ensures r.Err? && r.error.KeyError? ==>
      !OpensTruthy(opens) && r.error.key == current && current !in entries && Location(current) in entries
    ensures r.Err? && !r.error.KeyError? && !OpensTruthy(opens) ==>
      r.error == Escaped(UnexpectedKeyword) && current in entries && entries[current].IsComponent()
    ensures r.Ok? && r.value.NewPage? ==> current in entries && r.value.cls == entries[current]
  {
    if OpensTruthy(opens) then ClickOutcome(ownUrl, entries, current, opens, dom)
    else if ownUrl != Location(current) && Location(current) in entries then
      if current in entries then SwitchTo(entries[current]) else Err(KeyError(current))
    else
      Ok(Self)
  }

  /** With `opens` given, the click hands back an instance of the resolved class, whatever the URL. */
  lemma ClickOpensComponent(ownUrl: string, entries: Entries, current: string, other: string,
                            opens: Option<Target>, dom: seq<Element>)
    requires OpensTruthy(opens)
    ensures var r := ClickOutcome(ownUrl, entries, current, opens, dom);
      var c := Resolve(entries, opens.value);
      r == ClickOutcome(ownUrl, entries, other, opens, dom) &&
      (r.Ok? <==> exists i :: 0 <= i < |dom| && c.selector in dom[i].matches) &&
      (r.Ok? ==> r.value == Comp(c)) &&
      (r.Err? ==> r.error == Timeout(c.selector))
  {
  }

  /**
   * Without `opens`, the click switches exactly when the wrapper's url differs from the
   * location and the location is registered. It then hands back a new page of the class
   * registered under the location, or fails with TypeError when that class is a component;
   * otherwise it hands back the wrapper itself.
   */
  lemma ClickSwitchesPage(ownUrl: string, entries: Entries, current: string, opens: Option<Target>,
                          dom: seq<Element>)
    requires !OpensTruthy(opens)
    ensures var r := ClickOutcome(ownUrl, entries, current, opens, dom);
      var switches := ownUrl != Location(current) && Location(current) in entries;
      (r.Err? <==> switches && entries[Location(current)].IsComponent()) &&
      (r.Err? ==> r.error == Escaped(UnexpectedKeyword)) &&
      (r.Ok? && r.value.NewPage? <==> switches && !entries[Location(current)].IsComponent()) &&
      (r.Ok? && r.value.NewPage? ==> r.value.cls == entries[Location(current)]) &&
      (r.Ok? && !r.value.NewPage? ==> r.value == Self)
  {
  }

  /**
   * The input that shows the TypeError: a component class whose body sets url "/panel" is
   * registered under it, and a click on the page at "/home" lands on "/panel".
   */
  lemma ClickOntoComponentUrlRaises()
    ensures var panel := Declared("Panel", ComponentKind, "/panel", "#p");
      var entries := Register(map[], panel);
      ClickOutcome("/home", entries, "/panel", None, []) == Err(Escaped(UnexpectedKeyword)) &&
      ClickOutcomeAsWritten("/home", entries, "/panel", None, []) == Err(Escaped(UnexpectedKeyword))
  {
    LocationOfPlain("/panel");
  }

  /**
   * In a well-keyed registry the page a click switches to is filed under the location, so a
   * page class with a url has the location as its url and opening it navigates nowhere.
   */
  lemma SwitchedPageNeedsNoNavigation(ownUrl: string, entries: Entries, current: string,
                                      opens: Option<Target>, dom: seq<Element>, arrived: string)
    requires WellKeyed(entries)
    requires ClickOutcome(ownUrl, entries, current, opens, dom).Ok?
    requires ClickOutcome(ownUrl, entries, current, opens, dom).value.NewPage?
    ensures var p := ClickOutcome(ownUrl, entries, current, opens, dom).value.cls;
      RegistrationKey(p) == Some(Location(current)) &&
      (p.Url() != "" ==> p.Url() == Location(current) && UrlAfterOpening(current, p.Url(), arrived) == current)
  {
  }

  /** Without a query string in the URL, the code as written and the corrected lookup agree. */
  lemma AsWrittenAgreesWithoutQuery(ownUrl: string, entries: Entries, current: string,
                                    opens: Option<Target>, dom: seq<Element>)
    requires '?' !in current
    ensures ClickOutcomeAsWritten(ownUrl, entries, current, opens, dom)
         == ClickOutcome(ownUrl, entries, current, opens, dom)
  {
    LocationOfPlain(current);
  }

  /**
   * With a query string, the code as written raises KeyError where the guard has just found
   * the location registered, and the corrected lookup switches to that page.
   */
  lemma AsWrittenRaisesOnQuery(ownUrl: string, entries: Entries, current: string,
                               opens: Option<Target>, dom: seq<Element>)
    requires !OpensTruthy(opens)
    requires ownUrl != Location(current) && Location(current) in entries
    requires current !in entries
    ensures ClickOutcomeAsWritten(ownUrl, entries, current, opens, dom) == Err(KeyError(current))
    ensures ClickOutcome(ownUrl, entries, current, opens, dom) == SwitchTo(entries[Location(current)])
  {
  }

  /**
   * The input that shows it: HomePage at "/" registered as well as CoolPage at "/path"; the
   * click lands on "/path?next=1".
   */
  lemma QueryStringClickRaisesKeyError()
    ensures var home := Declared("HomePage", PageKind, "/", "");
      var cool := Declared("CoolPage", PageKind, "/path", "");
      var entries := map["/" := home, "/path" := cool];
      ClickOutcomeAsWritten("/", entries, "/path?next=1", None, []) == Err(KeyError("/path?next=1")) &&
      ClickOutcome("/", entries, "/path?next=1", None, []) == Ok(NewPage(cool))
  {
    LocationUnique("/path?next=1", "/path");
  }

  /** What `_ensure_element` is given. */
  datatype ElementArg =
    | CssSelector(selector: string)           // a string
    | ComponentArg(componentSelector: string) // a Component instance, by its selector
    | NoElement                               // None
    | GivenElement(element: Element)          // a WebElement, used as it is

  /** A button `click_button` may click: its text is the one asked for and it is displayed. */
  predicate Qualifies(button: Element, text: string)
  {
    button.text == text && button.displayed
  }

  /** The loop of `click_button`: the index of the first qualifying button, if there is one. */
  method FindButton(buttons: seq<Element>, text: string) returns (found: Option<nat>)
    ensures found.Some? ==> found.value < |buttons| && Qualifies(buttons[found.value], text)
    ensures found.Some? ==> forall j :: 0 <= j < found.value ==> !Qualifies(buttons[j], text)
    ensures found.None? <==> forall j :: 0 <= j < |buttons| ==> !Qualifies(buttons[j], text)
  {
    var i := 0;
    while i < |buttons|
      invariant 0 <= i <= |buttons|
      invariant forall j :: 0 <= j < i ==> !Qualifies(buttons[j], text)
    {
      if buttons[i].text == text && buttons[i].displayed {
        return Some(i);
      }
      i := i + 1;
    }
    return None;
  }

  /** What one of `enter_text`'s attempts sees. */
  datatype Typing =
    | Stale                                                   // reading the value raised StaleElementReferenceException
    | Typed(value: string, shownText: string, clearable: bool) // the value attribute, the text, and whether clear() worked
    | Failed(kind: string)                                    // send_keys or the read raised another exception

  /** `enter_text` tries at most this many times. */
  const TypingAttempts: nat := 5

  /** `"".join(text)`: the value the field should hold. */
  function Joined(text: seq<string>): string
  {
    if text == [] then "" else text[0] + Joined(text[1..])
  }

  /** Joining a concatenation of pieces concatenates the joined parts; one piece joins to itself. */
  lemma {:induction false} JoinedAppend(a: seq<string>, b: seq<string>)
    ensures Joined(a + b) == Joined(a) + Joined(b)
    ensures |a| == 1 ==> Joined(a) == a[0]
  {
    if a == [] {
      assert a + b == b;
    } else {
      assert (a + b)[0] == a[0];
      assert (a + b)[1..] == a[1..] + b;
      JoinedAppend(a[1..], b);
      if |a| == 1 {
        assert a[1..] == [];
      }
    }
  }

  /** `get_attribute("value") or element.text`. */
  function ValueInPlace(t: Typing): string
    requires t.Typed?
  {
    if t.value != "" then t.value else t.shownText
  }

  /** An attempt after which `enter_text` returns: stale element, right value, or a field that cannot be cleared. */
  predicate EndsTyping(t: Typing, expected: string)
  {
    t.Stale? || (t.Typed? && (ValueInPlace(t) == expected || !t.clearable))
  }

  /** An attempt after which `enter_text` types again: a wrong value in a field that was cleared. */
  predicate TypesAgain(t: Typing, expected: string)
  {
    t.Typed? && ValueInPlace(t) != expected && t.clearable
  }

  /** The outcome of `enter_text` and how many times it typed. */
  datatype Entry = Entry(result: Result<(), Error>, typed: nat)

  /** `enter_text`'s loop from attempt `k` on. */
  function TypingFrom(attempts: nat -> Typing, expected: string, k: nat): (r: Entry)
    requires k <= TypingAttempts
    ensures k <= r.typed <= TypingAttempts
    ensures r.result.Err? ==> r.result.error.TypingFailed? || r.result.error.Escaped?
    ensures r.result == Err(TypingFailed(expected)) ==> r.typed == TypingAttempts
    ensures r.result.Err? && r.result.error.Escaped? ==> k < r.typed && attempts(r.typed - 1) == Failed(r.result.error.kind)
    decreases TypingAttempts - k
  {
    if k == TypingAttempts then Entry(Err(TypingFailed(expected)), k)
    else if attempts(k).Failed? then Entry(Err(Escaped(attempts(k).kind)), k + 1)
    else if EndsTyping(attempts(k), expected) then Entry(Ok(()), k + 1)
    else TypingFrom(attempts, expected, k + 1)
  }

  /** `enter_text(selector, text)` on a page showing `dom`, where attempt `k` sees `attempts(k)`. */
  function EnterTextOutcome(dom: seq<Element>, selector: string, text: seq<string>,
                            attempts: nat -> Typing): (r: Entry)
    ensures r.typed <= TypingAttempts
    ensures r.result == Err(Timeout(selector)) <==> FindVisible(dom, selector).None?
    ensures r.typed == 0 <==> FindVisible(dom, selector).None?
  {
    if FindVisible(dom, selector).None? then Entry(Err(Timeout(selector)), 0)
    else TypingFrom(attempts, Joined(text), 0)
  }

  /** The attempts from `k` up to (not including) `j` all typed a wrong value and cleared it. */
  predicate RetypedBetween(attempts: nat -> Typing, expected: string, k: nat, j: nat)
  {
    forall i :: k <= i < j ==> TypesAgain(attempts(i), expected)
  }

  /** Attempts that type again are skipped over: the loop goes on as from the next one. */
  lemma {:induction false} TypingSkipsRetyped(attempts: nat -> Typing, expected: string, k: nat, j: nat)
    requires k <= j <= TypingAttempts
    requires RetypedBetween(attempts, expected, k, j)
    ensures TypingFrom(attempts, expected, k) == TypingFrom(attempts, expected, j)
    decreases j - k
  {
    if k < j {
      assert TypesAgain(attempts(k), expected);
      TypingSkipsRetyped(attempts, expected, k + 1, j);
    }
  }

  /** Typing stops at the first attempt that ends it, and returns normally there. */
  lemma TypingStopsAtFirstEnd(attempts: nat -> Typing, expected: string, j: nat)
    requires j < TypingAttempts
    requires RetypedBetween(attempts, expected, 0, j)
    requires EndsTyping(attempts(j), expected)
    ensures TypingFrom(attempts, expected, 0) == Entry(Ok(()), j + 1)
  {
    TypingSkipsRetyped(attempts, expected, 0, j);
  }

  /** Any other exception escapes on the attempt where it happens, with no further typing. */
  lemma TypingLetsOtherErrorsEscape(attempts: nat -> Typing, expected: string, j: nat)
    requires j < TypingAttempts
    requires RetypedBetween(attempts, expected, 0, j)
    requires attempts(j).Failed?
    ensures TypingFrom(attempts, expected, 0) == Entry(Err(Escaped(attempts(j).kind)), j + 1)
  {
    TypingSkipsRetyped(attempts, expected, 0, j);
  }

  /** When every attempt types a wrong value and clears it, `enter_text` raises after exactly five attempts. */
  lemma TypingFailsAfterAllAttempts(attempts: nat -> Typing, expected: string)
    requires RetypedBetween(attempts, expected, 0, TypingAttempts)
    ensures TypingFrom(attempts, expected, 0) == Entry(Err(TypingFailed(expected)), TypingAttempts)
  {
    TypingSkipsRetyped(attempts, expected, 0, TypingAttempts);
  }

  /** Attempt `j` is the first one that does not type again, and it ends typing. */
  predicate EndsAt(attempts: nat -> Typing, expected: string, k: nat, j: nat)
  {
    k <= j < TypingAttempts && RetypedBetween(attempts, expected, k, j) && EndsTyping(attempts(j), expected)
  }

  /** From attempt `k` on, the loop returns normally exactly when some attempt ends typing before any other exception. */
  lemma {:induction false} TypingFromSucceedsIff(attempts: nat -> Typing, expected: string, k: nat)
    requires k <= TypingAttempts
    ensures TypingFrom(attempts, expected, k).result.Ok? <==> exists j :: EndsAt(attempts, expected, k, j)
    decreases TypingAttempts - k
  {
    if k < TypingAttempts {
      if EndsTyping(attempts(k), expected) {
        assert EndsAt(attempts, expected, k, k);
      } else if attempts(k).Failed? {
        assert !TypesAgain(attempts(k), expected);
        forall j | EndsAt(attempts, expected, k, j)
          ensures false
        {
        }
      } else {
        var next := k + 1;
        TypingFromSucceedsIff(attempts, expected, next);
        if exists j :: EndsAt(attempts, expected, k, j) {
          var j :| EndsAt(attempts, expected, k, j);
          assert EndsAt(attempts, expected, next, j);
        }
        if exists j :: EndsAt(attempts, expected, next, j) {
          var j :| EndsAt(attempts, expected, next, j);
          assert EndsAt(attempts, expected, k, j);
        }
      }
    }
  }

  /**
   * Once the element is visible, `enter_text` returns normally exactly when one of its five
   * attempts ends typing, every attempt before it having typed a wrong value and cleared it.
   */
  lemma EnterTextSucceedsIff(dom: seq<Element>, selector: string, text: seq<string>, attempts: nat -> Typing)
    requires FindVisible(dom, selector).Some?
    ensures EnterTextOutcome(dom, selector, text, attempts).result.Ok?
        <==> exists j :: EndsAt(attempts, Joined(text), 0, j)
  {
    TypingFromSucceedsIff(attempts, Joined(text), 0);
    assert EnterTextOutcome(dom, selector, text, attempts) == TypingFrom(attempts, Joined(text), 0);
  }

  /** The web driver, reduced to the URL it is at. */
  class Driver {
    var currentUrl: string

    constructor (url: string)
      ensures currentUrl == url
    {
      currentUrl := url;
    }
  }

  /**
   * A page or component object. `url` is what `self.url` gives: a page's own url; for a
   * component the url its class sets, or else its parent's.
   */
  class Wrapper {
    const cls: ClassId
    const url: string
    const driver: Driver
    const registry: Registry
    const element: Element

    /**
     * `Page.__init__`: navigate only when the location is not the page's url. `arrived` is
     * where `driver.get` ends up and `body` is the page's body element.
     */
    constructor Page(cls: ClassId, driver: Driver, registry: Registry, arrived: string, body: Element)
      requires !cls.IsComponent()
      modifies driver
      ensures this.cls == cls && url == cls.Url() && element == body
      ensures this.driver == driver && this.registry == registry
      ensures driver.currentUrl == UrlAfterOpening(old(driver.currentUrl), cls.Url(), arrived)
    {
      this.cls := cls;
      this.url := cls.Url();
      this.driver := driver;
      this.registry := registry;
      this.element := body;
      new;
      if Location(driver.currentUrl) != url {
        driver.currentUrl := arrived;
      }
    }

    /**
     * `Component.__init__` once its element is known: it shares its parent's driver. Its url is
     * the parent's through the `url` property, unless the class body sets a url of its own,
     * which shadows that property.
     */
    constructor Component(parent: Wrapper, cls: ClassId, found: Element)
      ensures this.cls == cls && element == found
      ensures url == if cls.Url() != "" then cls.Url() else parent.url
      ensures driver == parent.driver && registry == parent.registry
    {
      this.cls := cls;
      this.url := if cls.Url() != "" then cls.Url() else parent.url;
      this.driver := parent.driver;
      this.registry := parent.registry;
      this.element := found;
    }

    /** `Component(self, element)`: use the element given, or look the class's selector up in `dom`. */
    method NewComponent(c: ClassId, given: Option<Element>, dom: seq<Element>) returns (r: Result<Wrapper, Error>)
      ensures given.None? && FindElement(dom, c.selector).None? ==> r == Err(Timeout(c.selector))
      ensures r.Ok? ==> fresh(r.value) && r.value.cls == c
      ensures r.Ok? ==> r.value.url == if c.Url() != "" then c.Url() else url
      ensures r.Ok? ==> r.value.driver == driver && r.value.registry == registry
      ensures r.Ok? ==> r.value.element == if given.Some? then given.value else FindElement(dom, c.selector).value
      ensures r.Err? ==> given.None? && FindElement(dom, c.selector).None?
    {
      if given.Some? {
        var w := new Wrapper.Component(this, c, given.value);
        return Ok(w);
      }
      var found := FindElement(dom, c.selector);
      if found.None? {
        r := Err(Timeout(c.selector));
      } else {
        var w := new Wrapper.Component(this, c, found.value);
        r := Ok(w);
      }
    }

    /** `get_component`: a component for `t`, or ComponentMissing when its element is not there. */
    method GetComponent(t: Target, dom: seq<Element>) returns (r: Result<Wrapper, Error>)
      requires registry.Valid()
      modifies registry
      ensures registry.Valid()
      ensures registry.entries == AfterResolve(old(registry.entries), t)
      ensures var c := Resolve(old(registry.entries), t);
        (r.Ok? <==> FindElement(dom, c.selector).Some?) &&
        (r.Ok? ==> fresh(r.value) && r.value.cls == c && r.value.element == FindElement(dom, c.selector).value) &&
        (r.Ok? ==> r.value.url == (if c.Url() != "" then c.Url() else url)) &&
        (r.Ok? ==> r.value.driver == driver && r.value.registry == registry) &&
        (r.Err? ==> r.error == ComponentMissing(c))
    {
      var c := registry.ComponentClass(t);
      var made := NewComponent(c, None, dom);
      match made {
        case Ok(w) => r := Ok(w);
        case Err(_) => r := Err(ComponentMissing(c));
      }
    }

    /** `get_components`: one component per matching element, or none when nothing matches. */
    method GetComponents(t: Target, dom: seq<Element>) returns (r: seq<Wrapper>)
      requires registry.Valid()
      modifies registry
      ensures registry.Valid()
      ensures registry.entries == AfterResolve(old(registry.entries), t)
      ensures var c := Resolve(old(registry.entries), t);
        |r| == |Matching(dom, c.selector)| &&
        forall i :: 0 <= i < |r| ==>
          fresh(r[i]) && r[i].cls == c && r[i].element == Matching(dom, c.selector)[i] &&
          r[i].url == (if c.Url() != "" then c.Url() else url) &&
          r[i].driver == driver && r[i].registry == registry
    {
      var c := registry.ComponentClass(t);
      // the timeout of `get_elements` is caught and gives no components
      var found := match LookupAll(dom, c.selector)
        case Ok(elements) => elements
        case Err(_) => [];
      r := [];
      while |r| < |found|
        invariant |r| <= |found|
        invariant registry.Valid() && registry.entries == AfterResolve(old(registry.entries), t)
        invariant forall i :: 0 <= i < |r| ==>
          fresh(r[i]) && r[i].cls == c && r[i].element == found[i] &&
          r[i].url == (if c.Url() != "" then c.Url() else url) &&
          r[i].driver == driver && r[i].registry == registry
      {
        var w := new Wrapper.Component(this, c, found[|r|]);
        r := r + [w];
      }
    }

    /** `_ensure_element`: turn what `click` was given into the element to click. */
    function EnsureElement(arg: ElementArg, dom: seq<Element>): (r: Result<Element, Error>)
      ensures arg.CssSelector? ==> r == Lookup(dom, arg.selector)
      ensures arg.ComponentArg? ==> r == Lookup(dom, arg.componentSelector)
      ensures arg.NoElement? ==> r == Ok(element)
      ensures arg.GivenElement? ==> r == Ok(arg.element)
      ensures r.Err? <==>
        (arg.CssSelector? || arg.ComponentArg?) &&
        forall i :: 0 <= i < |dom| ==>
          (if arg.CssSelector? then arg.selector else arg.componentSelector) !in dom[i].matches
    {
      match arg
      case CssSelector(s) => Lookup(dom, s)
      case ComponentArg(s) => Lookup(dom, s)
      case NoElement => Ok(element)
      case GivenElement(e) => Ok(e)
    }

    /** `_click`: click `el`, after which the browser shows `landing`, and decide what to hand back. */
    method ClickElement(el: Element, opens: Option<Target>, landing: Landing)
      returns (r: Result<Handed, Error>, clicked: Element)
      requires registry.Valid()
      modifies driver, registry
      ensures registry.Valid()
      ensures clicked == el
      ensures driver.currentUrl == landing.url
      ensures r == ClickOutcome(url, old(registry.entries), landing.url, opens, landing.elements)
      ensures registry.entries
           == if OpensTruthy(opens) then AfterResolve(old(registry.entries), opens.value) else old(registry.entries)
    {
      clicked := el;
      driver.currentUrl := landing.url;
      if OpensTruthy(opens) {
        var c := registry.ComponentClass(opens.value);
        if FindElement(landing.elements, c.selector).Some? {
          r := Ok(Comp(c));
        } else {
          r := Err(Timeout(c.selector));
        }
        return;
      }
      var location := Location(driver.currentUrl);
      if url != location && location in registry.entries {
        var cls := registry.entries[location];
        if cls.IsComponent() {
          r := Err(Escaped(UnexpectedKeyword));
        } else {
          r := Ok(NewPage(cls));
        }
      } else {
        r := Ok(Self);
      }
    }

    /** `click`: find the element on the page showing `dom`, then `_click` it. */
    method Click(arg: ElementArg, opens: Option<Target>, dom: seq<Element>, landing: Landing)
      returns (r: Result<Handed, Error>, clicked: Option<Element>)
      requires registry.Valid()
      modifies driver, registry
      ensures registry.Valid()
      ensures EnsureElement(arg, dom).Err? ==>
        r == Err(EnsureElement(arg, dom).error) && clicked == None &&
        driver.currentUrl == old(driver.currentUrl) && registry.entries == old(registry.entries)
      ensures EnsureElement(arg, dom).Ok? ==>
        clicked == Some(EnsureElement(arg, dom).value) &&
        driver.currentUrl == landing.url &&
        r == ClickOutcome(url, old(registry.entries), landing.url, opens, landing.elements) &&
        registry.entries
          == if OpensTruthy(opens) then AfterResolve(old(registry.entries), opens.value) else old(registry.entries)
    {
      match EnsureElement(arg, dom) {
        case Err(e) =>
          r, clicked := Err(e), None;
        case Ok(el) =>
          var element;
          r, element := ClickElement(el, opens, landing);
          clicked := Some(element);
      }
    }

    /** `click_button`: click the first displayed button with the text, or fail. */
    method ClickButton(text: string, opens: Option<Target>, dom: seq<Element>, landing: Landing)
      returns (r: Result<Handed, Error>, clicked: Option<Element>)
      requires registry.Valid()
      modifies driver, registry
      ensures registry.Valid()
      ensures var buttons := Matching(dom, "button");
        (forall b :: b in buttons ==> !Qualifies(b, text)) ==>
          r == Err(NoSuchButton(text)) && clicked == None &&
          driver.currentUrl == old(driver.currentUrl) && registry.entries == old(registry.entries)
      ensures var buttons := Matching(dom, "button");
        clicked.Some? ==>
          exists i :: 0 <= i < |buttons| && buttons[i] == clicked.value && Qualifies(buttons[i], text) &&
            forall j :: 0 <= j < i ==> !Qualifies(buttons[j], text)
      ensures var buttons := Matching(dom, "button");
        (exists b :: b in buttons && Qualifies(b, text)) ==>
          clicked.Some? &&
          driver.currentUrl == landing.url &&
          r == ClickOutcome(url, old(registry.entries), landing.url, opens, landing.elements) &&
          registry.entries
            == if OpensTruthy(opens) then AfterResolve(old(registry.entries), opens.value) else old(registry.entries)
    {
      var buttons := Matching(dom, "button");
      var found := FindButton(buttons, text);
      match found {
        case None =>
          r, clicked := Err(NoSuchButton(text)), None;
        case Some(i) =>
          var element;
          r, element := ClickElement(buttons[i], opens, landing);
          clicked := Some(element);
      }
    }

    /** `enter_text`: type into the visible element for `selector`, checking the value up to five times. */
    method EnterText(selector: string, text: seq<string>, dom: seq<Element>, attempts: nat -> Typing)
      returns (result: Result<(), Error>, typed: nat)
      ensures Entry(result, typed) == EnterTextOutcome(dom, selector, text, attempts)
      ensures typed <= TypingAttempts
    {
      if FindVisible(dom, selector).None? {
        return Err(Timeout(selector)), 0;
      }
      var expected := Joined(text);
      typed := 0;
      for k := 0 to TypingAttempts
        invariant typed == k
        invariant TypingFrom(attempts, expected, k) == TypingFrom(attempts, expected, 0)
      {
        var seen := attempts(k);
        typed := typed + 1;
        match seen {
          case Stale =>
            return Ok(()), typed;
          case Failed(kind) =>
            return Err(Escaped(kind)), typed;
          case Typed(_, _, clearable) =>
            if ValueInPlace(seen) == expected {
              return Ok(()), typed;
            }
            if !clearable {
              return Ok(()), typed;
            }
        }
      }
      result := Err(TypingFailed(expected));
    }
  }
}

=== FILE: registry.dfy ===
/**
 * The class registry of keteparaha/page.py: the `RegisterMeta` metaclass that files every
 * Page and Component subclass into one dictionary shared by both, and
 * `_get_component_class`, which turns a component class or a CSS selector into a class.
 *
 * A class attribute that is unset (`None`) and one set to the empty string are both falsy,
 * and they are both written "" here.
 */
module Registration {
  import opened Wrappers

  /** Which of the two registering base classes a class derives from. */
  datatype Kind = PageKind | ComponentKind

  /**
   * A Page or Component subclass, identified by the name of its class statement and the
   * `url` and `selector` its class body assigns; or a `DynamicComponent` made on the fly
   * for a selector nobody registered.
   */
  datatype ClassId =
    | Declared(name: string, kind: Kind, url: string, selector: string)
    | DynamicComponent(selector: string)
  {
    /** The `url` of the class body; a dynamic component's body sets none. */
    function Url(): string
    {
      if Declared? then url else ""
    }

    /** Whether the class is a subclass of Component. */
    predicate IsComponent()
    {
      DynamicComponent? || kind == ComponentKind
    }
  }

  /** The classes `_get_component_class` accepts as they are: subclasses of Component. */
  type ComponentId = c: ClassId | c.IsComponent() witness DynamicComponent("")

  /** The shared `_registry` dictionary. */
  type Entries = map<string, ClassId>

  /** The key `RegisterMeta.__init__` files a class under, if any. */
  function RegistrationKey(c: ClassId): (k: Option<string>)
    ensures c.Url() != "" ==> k == Some(c.Url())
    ensures c.Url() == "" && c.selector != "" ==> k == Some(c.selector)
    ensures k.None? <==> c.Url() == "" && c.selector == ""
    ensures k != Some("")
  {
    if c.Url() != "" then Some(c.Url())
    else if c.selector != "" then Some(c.selector)
    else None
  }

  /** The dictionary after `RegisterMeta.__init__` has run for class `c`. */
  function Register(entries: Entries, c: ClassId): (r: Entries)
    ensures c.Url() != "" ==> c.Url() in r && r[c.Url()] == c
    ensures c.Url() == "" && c.selector != "" ==> c.selector in r && r[c.selector] == c
    ensures c.Url() == "" && c.selector == "" ==> r == entries
    ensures forall k :: k in r <==> k in entries || Some(k) == RegistrationKey(c)
    ensures forall k :: k in entries && Some(k) != RegistrationKey(c) ==> r[k] == entries[k]
  {
    match RegistrationKey(c)
    case Some(k) => entries[k := c]
    case None => entries
  }

  /** Every entry is filed under the key the metaclass computes for its class. */
  ghost predicate WellKeyed(entries: Entries)
  {
    forall k :: k in entries ==> RegistrationKey(entries[k]) == Some(k)
  }

  /** Registering keeps the dictionary well keyed. */
  lemma RegisterKeepsWellKeyed(entries: Entries, c: ClassId)
    requires WellKeyed(entries)
    ensures WellKeyed(Register(entries, c))
  {
  }

  /** Registering a second class under a key already taken overwrites the first class. */
  lemma RegisterOverwrites(entries: Entries, first: ClassId, second: ClassId)
    requires RegistrationKey(first).Some? && RegistrationKey(first) == RegistrationKey(second)
    ensures Register(Register(entries, first), second) == Register(entries, second)
    ensures RegistrationKey(first).value in Register(Register(entries, first), second)
    ensures Register(Register(entries, first), second)[RegistrationKey(first).value] == second
  {
  }

  /** Classes filed under different keys can be registered in either order. */
  lemma RegisterCommutes(entries: Entries, c: ClassId, d: ClassId)
    requires RegistrationKey(c) != RegistrationKey(d) || RegistrationKey(c).None?
    ensures Register(Register(entries, c), d) == Register(Register(entries, d), c)
  {
  }

  /** What `_get_component_class` is given: a Component subclass or a CSS selector string. */
  datatype Target = ComponentClass(cls: ComponentId) | Selector(text: string)

  /** The class `_get_component_class` returns. */
  function Resolve(entries: Entries, t: Target): (c: ClassId)
    ensures t.ComponentClass? ==> c == t.cls
    ensures t.Selector? && t.text in entries ==> c == entries[t.text]
    ensures t.Selector? && t.text !in entries ==> c == DynamicComponent(t.text) && c.selector == t.text
  {
    match t
    case ComponentClass(cls) => cls
    case Selector(s) => if s in entries then entries[s] else DynamicComponent(s)
  }

  /**
   * The dictionary after `_get_component_class`: making a DynamicComponent runs the
   * metaclass, which files it under its selector when that is not empty.
   */
  function AfterResolve(entries: Entries, t: Target): (r: Entries)
    ensures entries.Keys <= r.Keys
    ensures forall k :: k in entries ==> r[k] == entries[k]
    ensures r.Keys - entries.Keys <= (if t.Selector? && t.text != "" then {t.text} else {})
  {
    if t.Selector? && t.text !in entries then Register(entries, DynamicComponent(t.text)) else entries
  }

  /** A component class comes back unchanged and a registered selector gives the registered class. */
  lemma ResolveKnown(entries: Entries, t: Target)
    requires t.ComponentClass? || t.text in entries
    ensures Resolve(entries, t) == (if t.ComponentClass? then t.cls else entries[t.text])
    ensures AfterResolve(entries, t) == entries
  {
  }

  /**
   * Any other selector yields a new DynamicComponent whose selector is that selector; if the
   * selector is not empty it is now registered, and only that entry is added.
   */
  lemma ResolveUnknown(entries: Entries, s: string)
    requires s !in entries
    ensures Resolve(entries, Selector(s)) == DynamicComponent(s)
    ensures Resolve(entries, Selector(s)).selector == s
    ensures s != "" ==> AfterResolve(entries, Selector(s)) == entries[s := DynamicComponent(s)]
    ensures s == "" ==> AfterResolve(entries, Selector(s)) == entries
  {
  }

  /**
   * In a well-keyed dictionary a non-empty selector always resolves to a class that the
   * metaclass files under that very selector, whether it was registered or made on the fly.
   */
  lemma ResolveFilesUnderSelector(entries: Entries, s: string)
    requires WellKeyed(entries)
    requires s != ""
    ensures RegistrationKey(Resolve(entries, Selector(s))) == Some(s)
    ensures WellKeyed(AfterResolve(entries, Selector(s)))
  {
  }

  /** Resolving the same target again gives the same class and leaves the dictionary alone. */
  lemma ResolveIsStable(entries: Entries, t: Target)
    requires t.Selector? ==> t.text != ""
    ensures var after := AfterResolve(entries, t);
      Resolve(after, t) == Resolve(entries, t) && AfterResolve(after, t) == after
  {
  }

  /** `Registry._registry`, the dictionary shared by every Page and Component subclass. */
  class Registry {
    var entries: Entries

    ghost predicate Valid()
      reads this
    {
      WellKeyed(entries)
    }

    /** The empty dictionary of `Registry`'s class body. */
    constructor ()
      ensures Valid() && entries == map[]
    {
      entries := map[];
    }

    /** `RegisterMeta.__init__`: file the newly created class `c`. */
    method RegisterClass(c: ClassId)
      requires Valid()
      modifies this
      ensures Valid()
      ensures entries == Register(old(entries), c)
    {
      if c.Url() != "" {
        entries := entries[c.Url() := c];
      } else if c.selector != "" {
        entries := entries[c.selector := c];
      }
      RegisterKeepsWellKeyed(old(entries), c);
    }

    /** `_get_component_class`: the class for `t`, registering a dynamic component it has to make. */
    method ComponentClass(t: Target) returns (c: ClassId)
      requires Valid()
      modifies this
      ensures Valid()
      ensures c == Resolve(old(entries), t)
      ensures entries == AfterResolve(old(entries), t)
    {
      match t {
        case ComponentClass(cls) =>
          c := cls;
        case Selector(s) =>
          if s in entries {
            c := entries[s];
          } else {
            c := DynamicComponent(s);
            RegisterClass(c);
          }
      }
    }
  }
}

=== FILE: wrappers.dfy ===
/** Optional values and results with an error, shared by the other modules. */
module Wrappers {

  /** A value that may be absent (Python's `None`). */
  datatype Option<+T> = None | Some(value: T)

  /** A value or the exception raised instead of producing it. */
  datatype Result<+R, +E> = Ok(value: R) | Err(error: E)
}
